=== FILE: README.md ===
# LinkedIn analytics dashboard: the table transformations, in Dafny

The dashboard (`main.py`) is a Streamlit script. It reads two LinkedIn exports: a
per-post table and a per-day site-metrics table. It normalizes them, filters
the posts, and charts the results. This project models the pure table and string
transformations inside that script as functions over immutable sequences of
row records. Every cell the pandas coercions could not parse is an `Option`
holding `None`, which stands for NaN or NaT. Dates are day numbers, counts are
`int` and rates are `real`.

Modules, one per component of the pipeline:

- `Options`: the `Option` cell type.
- `Text`: ASCII `\w`, `str.lower`, literal substring search and Python's string ordering.
- `Seqs`: boolean-mask row selection (`df[mask]`) and subsequence facts.
- `Hashtags`: `extract_hashtags`.
- `Posts`: the post record and the CTR rescale in `read_posts_csv`.
- `Boosted`: validation of `boosted_config.csv`, the left join on title, and the export.
- `Filters`: the date window and the hashtag filter.
- `Benchmarks`: column means and `flag`.
- `Trends`: metric-column ordering, the metrics date window, and `melt` + `dropna`.
- `Upload`: the file-role detection by file name.

Edge cases, as the code decides them:

- A boosted configuration that lacks either the `Post Title` or the `Boosted` column is discarded, and the boost table is built as if no file had been given (main.py:113-118, 127).
- `flag` compares with `>=`, and any comparison with NaN is false. A post whose value is missing is therefore flagged "❌ Below Avg", never left blank (main.py:206-210, 213-227).
- A mean over an all-missing column is NaN, and that NaN reaches `flag`, so every post is flagged "❌ Below Avg" (main.py:190-196, 213-227). The `v or 0` on main.py:199 and 201 only affects the metric display. NaN is truthy, so it does not even replace a NaN there.
- Saving the boost table and loading it back as the configuration reproduces it only when the post titles are distinct. A repeated title multiplies joined rows on every cycle (main.py:128-133, 147-149); see Findings.

## Model

| member | source | states |
|---|---|---|
| Text.Contains | main.py:183 | The literal search succeeds exactly when the needle occurs at some position of the text; an empty needle always occurs |
| Text.LexLeTotal | main.py:79 | Python's string order compares any two strings, so sorting by it is well defined |
| Text.LexLeTransitive | main.py:79 | Python's string order is transitive |
| Seqs.Filter | main.py:175-177 | Boolean-mask selection is a subsequence of the table, so table order is kept, and a row is in it exactly when the row is in the table and satisfies the mask |
| Seqs.FilterCounts | main.py:175-177 | The selection keeps every copy of each row satisfying the mask and no copy of any other row |
| Seqs.FilterCommute | main.py:171-185 | Two successive mask selections give the same table in either order |
| Hashtags.WordEnd | main.py:77 | The greedy `\w+` run stops at the first non-word character or at the end of the text |
| Hashtags.FindTags | main.py:77 | `re.findall(r"#\w+", s)` returns only `#` plus one or more word characters, and returns exactly the maximal tag at every `#` that is followed by a word character |
| Hashtags.AllTagsExact | main.py:76-78 | The collected tags are exactly the tags occurring in some non-missing title; missing titles contribute nothing |
| Hashtags.InsertByKey | main.py:79 | Inserting into a list sorted by lower-cased key keeps it sorted and adds exactly that tag |
| Hashtags.SortByKey | main.py:79 | The result is a permutation of its input, ordered by lower-cased key |
| Hashtags.ExtractHashtags | main.py:72-79 | No title column gives `[]`. Otherwise the result has no duplicates, is sorted by lower-cased key, keeps the original casing, and holds exactly the tags found in the non-missing titles |
| Posts.ColumnMax | main.py:56 | `max()` skips NaN: it returns the largest present value, and NaN only when no value is present |
| Posts.MaxDecidesFractional | main.py:56 | `max() <= 1` holds exactly when some CTR is present and every present CTR is at most 1 |
| Posts.RescaleCtr | main.py:55-57 | Every CTR is multiplied by 100 exactly when some CTR is present and all present ones are at most 1. Otherwise, including an empty or all-missing column, the table is unchanged. No other field changes |
| Posts.RescaledCtrIsPercentage | main.py:55-57 | After the rule fires, every present CTR is at most 100 |
| Posts.RescaleSettles | main.py:55-57 | If some original fraction exceeded 0.01, a second pass changes nothing |
| Posts.RescaleTwiceScalesAgain | main.py:55-57 | The rule is not idempotent: a column holding only 0.005 reaches 50 after two passes, so it must run once, at load |
| Boosted.ValidateConfig | main.py:111-118 | A file is kept, unchanged, exactly when its header has both `Post Title` and `Boosted`; otherwise it is treated as absent |
| Boosted.MergeRow | main.py:128-136 | Each post yields at least one row carrying its date and title. A row is boosted only if the file saved `True` for that title. The exact rows are stated by Boosted.MergeRowExact |
| Boosted.MergeRowExact | main.py:128-136 | A post yields one row per saved row with its title, or exactly one when there is none. Each row carries the post's date and title and a saved value for that title (`False` where the saved value is missing), or `False` when nothing was saved. Every saved value of the title appears, and row `j` carries the value of the `j`-th saved row with the title, so the block follows the file's order |
| Boosted.LeftJoin | main.py:128-133 | The left join has at least as many rows as there are posts, and every row belongs to a post. A boosted row has a saved `True` for its title. Each post's exact block is stated by Boosted.MergeRowInJoin and Boosted.LeftJoinRowsJoined |
| Boosted.MergeRowInJoin | main.py:128-133 | The rows of post `i` sit in place in the join: the rows of the posts before it, then its own, then those of the posts after it |
| Boosted.LeftJoinRowsJoined | main.py:128-136 | Every row of the join is one that the merge makes of some post: that post's date and title with one of its title's saved values, or `False` when none was saved |
| Boosted.LeftJoinAppend | main.py:128-133 | The join keeps post order and expands each post in place: joining two tables end to end is joining each and concatenating |
| Boosted.MergeRowBoostedIff | main.py:128-136 | Some joined row of a post is boosted exactly when the file saved `True` for the post's title |
| Boosted.BoostTable | main.py:125-137 | Without a valid file: one unboosted row per post, in post order. With one, a row is boosted only where a saved non-missing `True` exists. Each post's exact block is stated by Boosted.BoostTableBlock and Boosted.BoostTableRowsJoined |
| Boosted.BoostTableBlock | main.py:127-137 | With a valid file, post `i` gets its own block of merged rows (exact size and contents in Boosted.MergeRowExact), after the blocks of earlier posts and before those of later ones. So every post has a row with its date and title |
| Boosted.BoostTableRowsJoined | main.py:127-137 | With a valid file, every row of the boost table carries the date and title of some post and one of that title's saved values, or `False` when none was saved |
| Boosted.BoostTableBoostedIff | main.py:127-137 | With a valid file, some row carrying a post's title is boosted exactly when the file saved `True` for that title; a missing or `False` saved value never boosts |
| Boosted.InvalidConfigIgnored | main.py:113-118 | A file missing `Post Title` or `Boosted` is discarded, so every post stays unboosted |
| Boosted.UniqueSavedTitlesMerge | main.py:127-137 | With at most one saved row per title: one row per post, in post order, boosted exactly when the saved value is `True` (a missing saved value gives `False`) |
| Boosted.Export | main.py:82-85 | The saved file has the `Post Title` and `Boosted` columns, so reloading it passes validation. It has one row per table row, in order, with that row's title and its flag |
| Boosted.ExportReloadRoundTrip | main.py:125-149 | If post titles are distinct, exporting the edited table and uploading it again reproduces every flag |
| Boosted.SharedTitleMultipliesRows | main.py:128-133 | As written, two posts sharing a title produce four rows after one save/upload cycle |
| Boosted.BoostTableFirstSaved | main.py:127-137 | Corrected merge: always one row per post, in post order, with its date and title. A post is boosted exactly when the file is valid and the first saved row with its title holds `True`. No such row, or a missing or `False` value there, gives `False` |
| Boosted.FirstSavedAgreesOnUniqueTitles | main.py:127-137 | When saved titles are unique, the corrected merge equals the source's merge |
| Boosted.FirstSavedCycleSettles | main.py:125-149 | With the correction, a second save/upload cycle changes nothing, even when titles repeat |
| Boosted.FirstSavedRoundTrip | main.py:125-149 | With the correction, distinct titles still round-trip exactly |
| Filters.FilterByDate | main.py:173-177 | A two-date selection keeps, in order, exactly the rows whose date is present and within the closed interval; any other selection keeps everything |
| Filters.FilterByDateCounts | main.py:173-177 | The date window keeps every copy of each row it selects and no copy of any other |
| Filters.MatchesAnyTag | main.py:179-184 | The escaped alternation matches exactly when the lower-cased title contains some lower-cased tag as a literal substring |
| Filters.FilterByTags | main.py:178-185 | No selected tag keeps the table unchanged. Otherwise it keeps, in order, exactly the rows matching some selected tag (OR) |
| Filters.FilterByTagsCounts | main.py:178-185 | The tag selection keeps every copy of each matching row and no copy of any other |
| Filters.FilterPosts | main.py:171-185 | The filtered table is a subsequence of the posts and holds exactly the rows passing both the date and the tag selection |
| Filters.FilterPostsCounts | main.py:171-185 | The filtered table holds every copy of each row passing both selections and no copy of any other |
| Filters.MissingTitleNeverMatches | main.py:180-183 | A missing title is searched as the text `"nan"`, so no `#` tag matches it |
| Filters.FiltersCommute | main.py:171-185 | Applying the tag filter before the date filter gives the same table |
| Benchmarks.PresentExact | main.py:191-195 | `dropna` keeps exactly the values of the present cells |
| Benchmarks.PresentCounts | main.py:191-195 | `dropna` keeps each value as many times as it is present, and drops exactly the missing cells |
| Benchmarks.Mean | main.py:190-196 | The mean is NaN exactly when no value is present. Otherwise it is the sum of the present values divided by their number; some present value is at least the mean and some is at most it |
| Benchmarks.MeanIsReached | main.py:190-196 | The arithmetic mean of a non-empty list lies between its smallest and largest element |
| Benchmarks.Flag | main.py:206-210 | "✅ Above Avg" exactly when both sides are present and `value >= avg`, so ties count as above; otherwise "❌ Below Avg", including NaN on either side; never `""` |
| Benchmarks.FlagColumn | main.py:206-227 | One flag per row against the column's mean: "✅ Above Avg" exactly when the value is present, the mean is present and the value reaches it, and "❌ Below Avg" otherwise, including a value below the mean and a missing one. Some row is above average whenever a value is present, and above-average status is monotone in the value |
| Benchmarks.FlagRows | main.py:212-227 | Each row of a metric column is flagged above exactly when its value reaches the column's mean. Every other row is flagged below, never `""` |
| Benchmarks.FiveRatesMean | main.py:190-196 | Rates 1, 2, 3, 4, 5 have mean 3 |
| Benchmarks.FiveRatesFlags | main.py:206-215 | Against that mean, rates 3, 4 and 5 are above and rates 1 and 2 are below |
| Trends.MetricColumns | main.py:306-310 | The metric column names are a subsequence of the table's column names, in table order. A name is among them exactly when some numeric column other than `Date` has it |
| Trends.MetricColumnsAreMetricNames | main.py:306-310 | The metric columns are the names of the numeric non-`Date` columns, in table order and with repeats kept |
| Trends.OrderMetrics | main.py:311-321 | Same names as the metric columns. Preferred names come first, strictly in preferred order. The rest follow in table order |
| Trends.OrderMetricsPermutes | main.py:319-321 | Over distinct column names, the ordering is a permutation of the metric columns |
| Trends.WindowMetrics | main.py:326-329 | With a two-date selection, the metrics table keeps, in order, exactly the rows dated within the window. Otherwise it is unchanged |
| Trends.WindowMetricsCounts | main.py:327-329 | The window keeps every copy of each row dated inside it and no copy of any other |
| Trends.Melt | main.py:332-334 | `melt` yields one long row per (selected metric, table row) pair |
| Trends.MeltIndex | main.py:332-334 | `melt` is metric-major: row `i` of metric `k` is at position `k * rows + i`, carrying that row's date and cell |
| Trends.MeltMembers | main.py:332-334 | Every melted row comes from one selected metric and one table row |
| Trends.LongForm | main.py:332-336 | `dropna` keeps, in melted order, exactly the melted rows with both a date and a value |
| Trends.LongFormRowCount | main.py:331-336 | After `dropna`, the long table has one row per (selected metric, row) pair whose date and value are both present |
| Trends.NothingMissingRowCount | main.py:331-336 | With nothing missing, the long table has exactly (selected metrics × rows) rows |
| Trends.TrendLines | main.py:326-336 | No selected metric means no chart. Otherwise every long row has a date and a value, names a selected metric, and comes from a window row with that date and value |
| Trends.TrendLinesRowCount | main.py:326-336 | With a metric selected, the chart has exactly one row per (selected metric, window row) pair whose date and value are both present |
| Trends.TrendLinesCovers | main.py:326-336 | Every window row with a date and a value for a selected metric appears in the chart with that date, metric and value |
| Upload.RoleOf | main.py:105-109 | A name containing "all posts" (ignoring case) is the posts export. Otherwise a name containing "metrics" is the metrics export |
| Upload.LastWithRole | main.py:103-109 | Each role reads the last uploaded file with that role, or none if no file has it |

## Left out

- The Streamlit UI (page setup, uploaders, `data_editor`, `multiselect`, `date_input`, the download button) and the Altair charts. These are presentation; the widgets' values are parameters of the model. User edits of the boost table are modelled as a sequence of flags.
- Edits to the `Post Title` and `Created Date` cells of the boost table. The editor leaves every column editable (main.py:138-146), so an edited title is exported (main.py:147-149) and then matches no post on reload, which loses that post's flag. `Boosted.Edited` changes flags only, so `Boosted.ExportReloadRoundTrip` covers unedited titles only.
- CSV reading with the skipped first row, the column renaming, and the internals of `pd.to_datetime` and `pd.to_numeric`. These are library calls; the model starts from their output, with `None` for unparseable cells.
- Writing and re-reading `boosted_config.csv` is modelled as the identity on titles and booleans. CSV quoting and the `True`/`False` spelling are not modelled.
- The warning in `read_metrics_csv` for a missing `Date` column. It is a UI message, and the next line fails on the missing column anyway.
- A posts table without a `Post Title` column. The source fails on it when building the boost table.
- An empty or unreadable configuration file, on which `pd.read_csv` raises.
- The scatter-plot merge with `fillna(False)` and the weekday bar chart. These are rendering, and `day_name` needs a calendar.
- The benchmark captions `f"{(v or 0):.2f}%"`. They depend on float formatting, and NaN is truthy, so `v or 0` keeps NaN.
- The fallback date range from 2000-01-01 to `datetime.today()`. It depends on the wall clock.
- `convert_xls_to_csv.py`: spreadsheet-to-file I/O with no transformation logic.
- Unicode: `\w`, `str.lower` and case-insensitive matching are modelled over ASCII only.
- Time of day. Dates are day numbers. With real timestamps, a post created after midnight on the end date would fail `<= end`; that case is not modelled.
- Float arithmetic. CTR, rates and means are exact reals, so rounding is not modelled.
- A posts table that lacks any of the `Engagement Rate`, `CTR`, `Impressions`, `Clicks` or `Likes` columns. The source raises a KeyError when it averages and flags them (main.py:191-195, 213-227). Every `Post` record has all five fields, with `None` for a missing cell.
- Trends.Cell: a metric name missing from a row reads as missing. In pandas it would be a KeyError, but selected metrics are always columns of the table.
- Hashtags.ExtractHashtags: the order of two tags with the same lower-cased form (`#AI`, `#ai`) is not stated. Python takes it from set iteration order, which is arbitrary; the model keeps a fixed order.
- Posts.RescaleCtr: uses exact reals, so the effect of float rounding on `* 100` is not modelled.
- Benchmarks.Mean: uses exact reals, so float rounding of the sum is not modelled.

## Findings

| source | as written | input that shows it | evidently intended | confidence | as-written member | corrected member |
|---|---|---|---|---|---|---|
| main.py:128-133 | The saved configuration is left-joined on `Post Title` as is, so a post matches every saved row with its title | Two posts titled "A" with flags True and False: exporting and re-uploading gives four rows | One row per post: reduce the saved file to one row per title before joining | medium; not executed | Boosted.SharedTitleMultipliesRows | Boosted.BoostTableFirstSaved |

=== FILE: benchmarks.dfy ===
/**
 * The benchmark row: the mean of five engagement columns over the filtered
 * posts, and each post's flag against those means.
 */
module Benchmarks {
  import opened Options
  import opened Posts

  /** `series.dropna()`: the present values, in order. */
  function Present(col: seq<Option<real>>): seq<real>
  {
    if |col| == 0 then []
    else
      match col[0]
      case Some(v) => [v] + Present(col[1..])
      case None => Present(col[1..])
  }

  /** The present values are exactly the values of the `Some` cells. */
  lemma {:induction false} PresentExact(col: seq<Option<real>>)
    ensures forall x :: x in Present(col) <==> Some(x) in col
    ensures forall i :: 0 <= i < |col| && col[i].Some? ==> col[i].value in Present(col)
  {
    if |col| > 0 {
      PresentExact(col[1..]);
      assert col == [col[0]] + col[1..];
    }
  }

  /**
   * Each value is present as often as its `Some` cell occurs, and the present
   * values and the missing cells together make up the column.
   */
  lemma {:induction false} PresentCounts(col: seq<Option<real>>)
    ensures forall x :: multiset(Present(col))[x] == multiset(col)[Some(x)]
    ensures |Present(col)| + multiset(col)[None] == |col|
  {
    if |col| > 0 {
      PresentCounts(col[1..]);
      assert col == [col[0]] + col[1..];
      assert multiset(col) == multiset{col[0]} + multiset(col[1..]);
      match col[0]
      case Some(v) =>
        assert multiset(Present(col)) == multiset{v} + multiset(Present(col[1..]));
      case None =>
        assert Present(col) == Present(col[1..]);
    }
  }

  function Sum(xs: seq<real>): real
  {
    if |xs| == 0 then 0.0 else xs[0] + Sum(xs[1..])
  }

  /** A sum of values all below `c` is below `c` times their number. */
  lemma {:induction false} SumBelow(xs: seq<real>, c: real)
    requires |xs| > 0
    requires forall i :: 0 <= i < |xs| ==> xs[i] < c
    ensures Sum(xs) < c * |xs| as real
  {
    if |xs| > 1 {
      SumBelow(xs[1..], c);
    }
  }

  /** A sum of values all above `c` is above `c` times their number. */
  lemma {:induction false} SumAbove(xs: seq<real>, c: real)
    requires |xs| > 0
    requires forall i :: 0 <= i < |xs| ==> xs[i] > c
    ensures Sum(xs) > c * |xs| as real
  {
    if |xs| > 1 {
      SumAbove(xs[1..], c);
    }
  }

  /** `Series.mean()`: the arithmetic mean of the present values, NaN (`None`) when there is none. */
  function Mean(col: seq<Option<real>>): (m: Option<real>)
    ensures m.None? <==> forall i :: 0 <= i < |col| ==> col[i].None?
    ensures m.Some? ==> exists i :: 0 <= i < |col| && col[i].Some? && col[i].value >= m.value
    ensures m.Some? ==> exists i :: 0 <= i < |col| && col[i].Some? && col[i].value <= m.value
    ensures m.Some? ==> |Present(col)| > 0 && m.value == Sum(Present(col)) / |Present(col)| as real
  {
    var xs := Present(col);
    PresentExact(col);
    if |xs| == 0 then
      None
    else
      var m := Sum(xs) / |xs| as real;
      MeanIsReached(xs);
      var hi :| 0 <= hi < |xs| && xs[hi] >= m;
      var lo :| 0 <= lo < |xs| && xs[lo] <= m;
      assert xs[hi] in xs && xs[lo] in xs;
      Some(m)
  }

  /** Some value is at least the mean and some value is at most the mean. */
  lemma MeanIsReached(xs: seq<real>)
    requires |xs| > 0
    ensures exists i :: 0 <= i < |xs| && xs[i] >= Sum(xs) / |xs| as real
    ensures exists i :: 0 <= i < |xs| && xs[i] <= Sum(xs) / |xs| as real
  {
    var n := |xs| as real;
    var m := Sum(xs) / n;
    assert m * n == Sum(xs);
    if forall i :: 0 <= i < |xs| ==> xs[i] < m {
      SumBelow(xs, m);
      assert false;
    }
    if forall i :: 0 <= i < |xs| ==> xs[i] > m {
      SumAbove(xs, m);
      assert false;
    }
  }

  const AboveAvg := "✅ Above Avg"
  const BelowAvg := "❌ Below Avg"

  /**
   * `flag(value, avg)`: `value >= avg`, where a NaN on either side makes the
   * comparison false. Numeric cells never make it raise, so the `""` branch of
   * the source is never taken.
   */
  function Flag(value: Option<real>, avg: Option<real>): (r: string)
    ensures r != ""
    ensures r == AboveAvg <==> value.Some? && avg.Some? && value.value >= avg.value
    ensures r == BelowAvg <==> !(value.Some? && avg.Some? && value.value >= avg.value)
  {
    match (value, avg)
    case (Some(v), Some(a)) => if v >= a then AboveAvg else BelowAvg
    case _ => BelowAvg
  }

  /**
   * The flag column for one metric: every row against the column's mean.
   * Some row is above average whenever a value is present; ties count as above;
   * a value below the mean, or a missing one, is flagged below.
   */
  function FlagColumn(col: seq<Option<real>>): (r: seq<string>)
    ensures |r| == |col|
    ensures (exists i :: 0 <= i < |col| && col[i].Some?) ==> exists i :: 0 <= i < |r| && r[i] == AboveAvg
    ensures forall i :: 0 <= i < |col| && col[i].None? ==> r[i] == BelowAvg
    ensures forall i, j :: (0 <= i < |col| && 0 <= j < |col| && col[i].Some? && col[j].Some? &&
                            col[i].value <= col[j].value && r[i] == AboveAvg) ==> r[j] == AboveAvg
    ensures forall i :: 0 <= i < |col| ==>
      r[i] == (if col[i].Some? && Mean(col).Some? && col[i].value >= Mean(col).value then AboveAvg else BelowAvg)
  {
    var avg := Mean(col);
    var r := seq(|col|, i requires 0 <= i < |col| => Flag(col[i], avg));
    assert avg.Some? ==> exists i :: 0 <= i < |r| && r[i] == AboveAvg by {
      if avg.Some? {
        var hi :| 0 <= hi < |col| && col[hi].Some? && col[hi].value >= avg.value;
        assert r[hi] == AboveAvg;
      }
    }
    r
  }

  /** The five benchmarked metrics. */
  datatype Metric = EngagementRate | Ctr | Impressions | Clicks | Likes

  function AsReal(x: Option<int>): Option<real>
  {
    match x
    case Some(n) => Some(n as real)
    case None => None
  }

  function Value(p: Post, m: Metric): Option<real>
  {
    match m
    case EngagementRate => p.engagementRate
    case Ctr => p.ctr
    case Impressions => AsReal(p.impressions)
    case Clicks => AsReal(p.clicks)
    case Likes => AsReal(p.likes)
  }

  function MetricColumn(rows: seq<Post>, m: Metric): seq<Option<real>>
  {
    seq(|rows|, i requires 0 <= i < |rows| => Value(rows[i], m))
  }

  /** The flags of one metric column of the filtered table, in row order. */
  function FlagRows(rows: seq<Post>, m: Metric): (r: seq<string>)
    ensures |r| == |rows|
    ensures forall i :: 0 <= i < |rows| ==>
      (r[i] == AboveAvg <==> Value(rows[i], m).Some? && Mean(MetricColumn(rows, m)).Some? &&
                             Value(rows[i], m).value >= Mean(MetricColumn(rows, m)).value)
    ensures forall i :: 0 <= i < |rows| ==> r[i] == AboveAvg || r[i] == BelowAvg
  {
    FlagColumn(MetricColumn(rows, m))
  }

  /** Engagement rates 1, 2, 3, 4, 5 average 3. */
  lemma FiveRatesMean()
    ensures Mean([Some(1.0), Some(2.0), Some(3.0), Some(4.0), Some(5.0)]) == Some(3.0)
  {
    var col := [Some(1.0), Some(2.0), Some(3.0), Some(4.0), Some(5.0)];
    assert Present(col[5..]) == [];
    assert Present(col[4..]) == [5.0];
    assert Present(col[3..]) == [4.0, 5.0];
    assert Present(col[2..]) == [3.0, 4.0, 5.0];
    assert Present(col[1..]) == [2.0, 3.0, 4.0, 5.0];
    var xs := Present(col);
    assert xs == [1.0, 2.0, 3.0, 4.0, 5.0];
    assert Sum(xs[4..]) == 5.0;
    assert Sum(xs[3..]) == 9.0;
    assert Sum(xs[2..]) == 12.0;
    assert Sum(xs[1..]) == 14.0;
  }

  /** Against that mean the posts at 3, 4 and 5 are above average, those at 1 and 2 below. */
  lemma FiveRatesFlags()
    ensures FlagColumn([Some(1.0), Some(2.0), Some(3.0), Some(4.0), Some(5.0)]) ==
      [BelowAvg, BelowAvg, AboveAvg, AboveAvg, AboveAvg]
  {
    var col := [Some(1.0), Some(2.0), Some(3.0), Some(4.0), Some(5.0)];
    FiveRatesMean();
    var r := FlagColumn(col);
    assert r[0] == BelowAvg && r[1] == BelowAvg;
    assert r[2] == AboveAvg && r[3] == AboveAvg && r[4] == AboveAvg;
  }
}

=== FILE: boosted.dfy ===
/**
 * The boost annotation: every post starts unboosted; a saved configuration
 * file, once validated, is left-joined on the post title and its non-missing
 * values win (`combine_first`).
 */
module Boosted {
  import opened Options
  import opened Seqs
  import opened Posts

  const CreatedColumn := "Created Date"
  const TitleColumn := "Post Title"
  const BoostedColumn := "Boosted"

  /** One row of an uploaded `boosted_config.csv`, read through its two required columns. */
  datatype ConfigRow = ConfigRow(title: Option<string>, boosted: Option<bool>)

  /** An uploaded configuration file: its header and its rows. */
  datatype ConfigFile = ConfigFile(columns: seq<string>, rows: seq<ConfigRow>)

  /** One row of the editable boost table. */
  datatype BoostRow = BoostRow(created: Option<int>, title: Option<string>, boosted: bool)

  /** A file lacking the `Post Title` or the `Boosted` column is reported and treated as absent. */
  function ValidateConfig(file: Option<ConfigFile>): (r: Option<ConfigFile>)
    ensures r.Some? <==> file.Some? && TitleColumn in file.value.columns && BoostedColumn in file.value.columns
    ensures r.Some? ==> r == file
  {
    match file
    case Some(f) =>
      if TitleColumn in f.columns && BoostedColumn in f.columns then file else None
    case None => None
  }

  function Unboosted(p: Post): BoostRow
  {
    BoostRow(p.created, p.title, false)
  }

  /** The saved rows whose title equals `title`; pandas matches a missing key with a missing key. */
  function SavedRows(title: Option<string>, cfg: seq<ConfigRow>): seq<ConfigRow>
  {
    Filter(cfg, (c: ConfigRow) => c.title == title)
  }

  /**
   * `x` is a row the join can make of post `p`: the post's date and title, and
   * the value of a saved row with that title (`False` where it is missing), or
   * `False` when no row was saved under the title.
   */
  ghost predicate JoinedFrom(x: BoostRow, p: Post, cfg: seq<ConfigRow>)
  {
    && x.created == p.created && x.title == p.title
    && (if exists k :: 0 <= k < |cfg| && cfg[k].title == p.title
        then exists k :: 0 <= k < |cfg| && cfg[k].title == p.title && x.boosted == cfg[k].boosted.GetOr(false)
        else !x.boosted)
  }

  /**
   * The left-join rows of one post: one row per saved row with its title (the
   * saved value, or `False` where it is missing), or a single unboosted row.
   */
  function MergeRow(p: Post, cfg: seq<ConfigRow>): (r: seq<BoostRow>)
    ensures |r| >= 1
    ensures forall x :: x in r ==> x.created == p.created && x.title == p.title
    ensures forall x :: x in r && x.boosted ==> ConfigRow(p.title, Some(true)) in cfg
  {
    var ms := SavedRows(p.title, cfg);
    if |ms| == 0 then
      [Unboosted(p)]
    else
      var r := seq(|ms|, k requires 0 <= k < |ms| => BoostRow(p.created, p.title, ms[k].boosted.GetOr(false)));
      forall x | x in r && x.boosted
        ensures ConfigRow(p.title, Some(true)) in cfg
      {
        var k :| 0 <= k < |r| && r[k] == x;
        assert ms[k] in ms;
        assert ms[k] == ConfigRow(p.title, Some(true));
      }
      r
  }

  /** `boosted_df.merge(config, on="Post Title", how="left")`: post order, each post expanded in place. */
  function LeftJoin(posts: seq<Post>, cfg: seq<ConfigRow>): (r: seq<BoostRow>)
    ensures |r| >= |posts|
    ensures forall x :: x in r ==> exists i :: 0 <= i < |posts| && x.created == posts[i].created && x.title == posts[i].title
    ensures forall x :: x in r && x.boosted ==> ConfigRow(x.title, Some(true)) in cfg
  {
    if |posts| == 0 then []
    else
      var head := MergeRow(posts[0], cfg);
      var rest := LeftJoin(posts[1..], cfg);
      forall x | x in head + rest
        ensures exists i :: 0 <= i < |posts| && x.created == posts[i].created && x.title == posts[i].title
      {
        if x in rest {
          var i :| 0 <= i < |posts[1..]| && x.created == posts[1..][i].created && x.title == posts[1..][i].title;
          assert posts[i + 1] == posts[1..][i];
        } else {
          assert x.created == posts[0].created && x.title == posts[0].title;
        }
      }
      head + rest
  }

  /**
   * The boost table shown for editing: without a (valid) configuration one
   * unboosted row per post in post order; with one, the left join, where a row
   * is boosted only if the file saved `True` for its title.
   */
  function BoostTable(posts: seq<Post>, config: Option<ConfigFile>): (r: seq<BoostRow>)
    ensures config.None? ==> (|r| == |posts| &&
      forall i :: 0 <= i < |posts| ==> r[i].created == posts[i].created && r[i].title == posts[i].title && !r[i].boosted)
    ensures |r| >= |posts|
    ensures forall x :: x in r ==> exists i :: 0 <= i < |posts| && x.created == posts[i].created && x.title == posts[i].title
    ensures forall x :: x in r && x.boosted ==> config.Some? && ConfigRow(x.title, Some(true)) in config.value.rows
  {
    match config
    case None =>
      seq(|posts|, i requires 0 <= i < |posts| => Unboosted(posts[i]))
    case Some(f) =>
      LeftJoin(posts, f.rows)
  }

  /**
   * `download_csv_button(boosted_edited, "boosted_config.csv", ...)`, read back
   * as a configuration: it has both required columns and one saved row per
   * table row, with that row's title and flag.
   */
  function Export(rows: seq<BoostRow>): (f: ConfigFile)
    ensures ValidateConfig(Some(f)) == Some(f)
    ensures |f.rows| == |rows|
    ensures forall i :: 0 <= i < |rows| ==> f.rows[i].title == rows[i].title && f.rows[i].boosted == Some(rows[i].boosted)
  {
    ConfigFile([CreatedColumn, TitleColumn, BoostedColumn],
      seq(|rows|, i requires 0 <= i < |rows| => ConfigRow(rows[i].title, Some(rows[i].boosted))))
  }

  /** The boost table for `posts` after the user set the flags `flags`. */
  function Edited(posts: seq<Post>, flags: seq<bool>): seq<BoostRow>
    requires |flags| == |posts|
  {
    seq(|posts|, i requires 0 <= i < |posts| => BoostRow(posts[i].created, posts[i].title, flags[i]))
  }

  ghost predicate DistinctTitles(posts: seq<Post>)
  {
    forall i, j :: 0 <= i < j < |posts| ==> posts[i].title != posts[j].title
  }

  ghost predicate DistinctSavedTitles(cfg: seq<ConfigRow>)
  {
    forall i, j :: 0 <= i < j < |cfg| ==> cfg[i].title != cfg[j].title
  }

  /** A file missing either required column changes nothing: every post stays unboosted. */
  lemma InvalidConfigIgnored(posts: seq<Post>, f: ConfigFile)
    requires TitleColumn !in f.columns || BoostedColumn !in f.columns
    ensures BoostTable(posts, ValidateConfig(Some(f))) == seq(|posts|, i requires 0 <= i < |posts| => Unboosted(posts[i]))
  {
  }

  /** The join expands each post in place: joining two tables end to end joins each and concatenates. */
  lemma {:induction false} LeftJoinAppend(a: seq<Post>, b: seq<Post>, cfg: seq<ConfigRow>)
    ensures LeftJoin(a + b, cfg) == LeftJoin(a, cfg) + LeftJoin(b, cfg)
  {
    if |a| == 0 {
      assert a + b == b;
    } else {
      var ab := a + b;
      assert ab[0] == a[0] && ab[1..] == a[1..] + b;
      LeftJoinAppend(a[1..], b, cfg);
      calc {
        LeftJoin(ab, cfg);
        MergeRow(a[0], cfg) + LeftJoin(a[1..] + b, cfg);
        MergeRow(a[0], cfg) + (LeftJoin(a[1..], cfg) + LeftJoin(b, cfg));
        (MergeRow(a[0], cfg) + LeftJoin(a[1..], cfg)) + LeftJoin(b, cfg);
        LeftJoin(a, cfg) + LeftJoin(b, cfg);
      }
    }
  }

  /**
   * The rows of post `i` sit in place in the join: the join is the rows of
   * the posts before it, then its own rows, then those of the posts after it.
   */
  lemma MergeRowInJoin(posts: seq<Post>, cfg: seq<ConfigRow>, i: int)
    requires 0 <= i < |posts|
    ensures LeftJoin(posts, cfg) == LeftJoin(posts[..i], cfg) + MergeRow(posts[i], cfg) + LeftJoin(posts[i + 1..], cfg)
    ensures forall x :: x in MergeRow(posts[i], cfg) ==> x in LeftJoin(posts, cfg)
  {
    var before, after := posts[..i], posts[i + 1..];
    assert posts == before + ([posts[i]] + after);
    LeftJoinAppend(before, [posts[i]] + after, cfg);
    LeftJoinAppend([posts[i]], after, cfg);
    assert LeftJoin([posts[i]], cfg) == MergeRow(posts[i], cfg);
  }

  /**
   * The joined rows of one post: one per saved row with its title, or one when
   * there is none; each carries the post's date and title and a saved value of
   * that title (`False` where missing), or `False` when none was saved; and
   * every saved value of the title appears. Row `j` carries the value of the
   * `j`-th saved row with the title, so the rows follow the file's order.
   */
  lemma MergeRowExact(p: Post, cfg: seq<ConfigRow>)
    ensures var r := MergeRow(p, cfg);
      && |r| == (if |SavedRows(p.title, cfg)| == 0 then 1 else |SavedRows(p.title, cfg)|)
      && (forall j :: 0 <= j < |SavedRows(p.title, cfg)| ==>
            r[j] == BoostRow(p.created, p.title, SavedRows(p.title, cfg)[j].boosted.GetOr(false)))
      && (forall x :: x in r ==> JoinedFrom(x, p, cfg))
      && (forall k :: 0 <= k < |cfg| && cfg[k].title == p.title ==>
            BoostRow(p.created, p.title, cfg[k].boosted.GetOr(false)) in r)
  {
    var ms := SavedRows(p.title, cfg);
    var r := MergeRow(p, cfg);
    if |ms| > 0 {
      forall x | x in r
        ensures JoinedFrom(x, p, cfg)
      {
        var k :| 0 <= k < |r| && r[k] == x;
        assert ms[k] in ms;
        var m :| 0 <= m < |cfg| && cfg[m] == ms[k];
      }
      forall k | 0 <= k < |cfg| && cfg[k].title == p.title
        ensures BoostRow(p.created, p.title, cfg[k].boosted.GetOr(false)) in r
      {
        assert cfg[k] in ms;
        var j :| 0 <= j < |ms| && ms[j] == cfg[k];
        assert r[j] == BoostRow(p.created, p.title, cfg[k].boosted.GetOr(false));
      }
    } else {
      assert forall k :: 0 <= k < |cfg| ==> cfg[k] in cfg;
    }
  }

  /** Every joined row is one the join makes of some post. */
  lemma {:induction false} LeftJoinRowsJoined(posts: seq<Post>, cfg: seq<ConfigRow>)
    ensures forall x :: x in LeftJoin(posts, cfg) ==> exists i :: 0 <= i < |posts| && JoinedFrom(x, posts[i], cfg)
  {
    if |posts| > 0 {
      LeftJoinRowsJoined(posts[1..], cfg);
      MergeRowExact(posts[0], cfg);
      var head, rest := MergeRow(posts[0], cfg), LeftJoin(posts[1..], cfg);
      assert LeftJoin(posts, cfg) == head + rest;
      forall x | x in head + rest
        ensures exists i :: 0 <= i < |posts| && JoinedFrom(x, posts[i], cfg)
      {
        if x in rest {
          var i :| 0 <= i < |posts[1..]| && JoinedFrom(x, posts[1..][i], cfg);
          assert posts[i + 1] == posts[1..][i];
        } else {
          assert JoinedFrom(x, posts[0], cfg);
        }
      }
    }
  }

  /**
   * With a valid file the boost table gives post `i` its own block of joined
   * rows, after those of the posts before it and before those of the posts
   * after it; so every post has at least one row with its date and title.
   */
  lemma BoostTableBlock(posts: seq<Post>, f: ConfigFile, i: int)
    requires 0 <= i < |posts|
    ensures BoostTable(posts, Some(f)) ==
      BoostTable(posts[..i], Some(f)) + MergeRow(posts[i], f.rows) + BoostTable(posts[i + 1..], Some(f))
    ensures exists x :: x in BoostTable(posts, Some(f)) && x.created == posts[i].created && x.title == posts[i].title
  {
    MergeRowInJoin(posts, f.rows, i);
    var h := MergeRow(posts[i], f.rows);
    assert h[0] in h;
  }

  /** With a valid file every row of the boost table is one the join makes of some post. */
  lemma BoostTableRowsJoined(posts: seq<Post>, f: ConfigFile)
    ensures forall x :: x in BoostTable(posts, Some(f)) ==> exists i :: 0 <= i < |posts| && JoinedFrom(x, posts[i], f.rows)
  {
    LeftJoinRowsJoined(posts, f.rows);
  }

  /** A post has a boosted joined row exactly when the file saved `True` for its title. */
  lemma MergeRowBoostedIff(p: Post, cfg: seq<ConfigRow>)
    ensures (exists x :: x in MergeRow(p, cfg) && x.boosted) <==> ConfigRow(p.title, Some(true)) in cfg
  {
    var saved := ConfigRow(p.title, Some(true));
    if saved in cfg {
      var ms := SavedRows(p.title, cfg);
      assert saved in ms;
      var k :| 0 <= k < |ms| && ms[k] == saved;
      var r := MergeRow(p, cfg);
      assert r[k] == BoostRow(p.created, p.title, true);
      assert r[k] in r;
    }
  }

  /**
   * In the boost table built from a valid file, some row of a post's title is
   * boosted exactly when the file saved `True` for that title.
   */
  lemma BoostTableBoostedIff(posts: seq<Post>, f: ConfigFile, i: int)
    requires 0 <= i < |posts|
    ensures (exists x :: x in BoostTable(posts, Some(f)) && x.title == posts[i].title && x.boosted)
      <==> ConfigRow(posts[i].title, Some(true)) in f.rows
  {
    if ConfigRow(posts[i].title, Some(true)) in f.rows {
      MergeRowBoostedIff(posts[i], f.rows);
      MergeRowInJoin(posts, f.rows, i);
    }
  }

  /** A left join that gives each post exactly one row produces those rows in post order. */
  lemma {:induction false} LeftJoinOneEach(posts: seq<Post>, cfg: seq<ConfigRow>, out: seq<BoostRow>)
    requires |out| == |posts|
    requires forall i :: 0 <= i < |posts| ==> MergeRow(posts[i], cfg) == [out[i]]
    ensures LeftJoin(posts, cfg) == out
  {
    if |posts| > 0 {
      LeftJoinOneEach(posts[1..], cfg, out[1..]);
      assert MergeRow(posts[0], cfg) == [out[0]];
      assert out == [out[0]] + out[1..];
    }
  }

  /**
   * With at most one saved row per title the join keeps one row per post, in
   * post order: the saved value where present, `False` otherwise.
   */
  lemma UniqueSavedTitlesMerge(posts: seq<Post>, f: ConfigFile)
    requires DistinctSavedTitles(f.rows)
    ensures var r := BoostTable(posts, Some(f));
      |r| == |posts| &&
      forall i :: 0 <= i < |posts| ==>
        r[i] == BoostRow(posts[i].created, posts[i].title, ConfigRow(posts[i].title, Some(true)) in f.rows)
  {
    var out := seq(|posts|, i requires 0 <= i < |posts| =>
      BoostRow(posts[i].created, posts[i].title, ConfigRow(posts[i].title, Some(true)) in f.rows));
    forall i | 0 <= i < |posts|
      ensures MergeRow(posts[i], f.rows) == [out[i]]
    {
      var p := posts[i];
      var pred := (c: ConfigRow) => c.title == p.title;
      if k :| 0 <= k < |f.rows| && f.rows[k].title == p.title {
        FilterSingle(f.rows, pred, k);
        if ConfigRow(p.title, Some(true)) in f.rows {
          var m :| 0 <= m < |f.rows| && f.rows[m] == ConfigRow(p.title, Some(true));
          assert m == k;
        }
      } else {
        FilterNone(f.rows, pred);
      }
    }
    LeftJoinOneEach(posts, f.rows, out);
  }

  /**
   * Round trip: when post titles are distinct, exporting the edited table and
   * uploading the file again reproduces every flag.
   */
  lemma ExportReloadRoundTrip(posts: seq<Post>, flags: seq<bool>)
    requires |flags| == |posts|
    requires DistinctTitles(posts)
    ensures BoostTable(posts, ValidateConfig(Some(Export(Edited(posts, flags))))) == Edited(posts, flags)
  {
    var f := Export(Edited(posts, flags));
    assert ValidateConfig(Some(f)) == Some(f);
    assert DistinctSavedTitles(f.rows);
    UniqueSavedTitlesMerge(posts, f);
    var r := BoostTable(posts, Some(f));
    forall i | 0 <= i < |posts|
      ensures r[i] == Edited(posts, flags)[i]
    {
      assert f.rows[i] == ConfigRow(posts[i].title, Some(flags[i]));
      forall m | 0 <= m < |f.rows| && f.rows[m].title == posts[i].title
        ensures m == i
      {
      }
    }
  }

  /**
   * As written, two posts sharing a title each match both saved rows of that
   * title: a save/upload cycle turns two rows into four (and a second cycle four into eight).
   */
  lemma SharedTitleMultipliesRows()
    ensures var posts := [TitledPost("A"), TitledPost("A")];
      |BoostTable(posts, ValidateConfig(Some(Export(Edited(posts, [true, false])))))| == 4
  {
    var posts := [TitledPost("A"), TitledPost("A")];
    var f := Export(Edited(posts, [true, false]));
    assert ValidateConfig(Some(f)) == Some(f);
    FilterAll(f.rows, (c: ConfigRow) => c.title == Some("A"));
    assert |MergeRow(posts[0], f.rows)| == 2;
    assert |MergeRow(posts[1], f.rows)| == 2;
    assert posts[1..][1..] == [];
  }

  function TitledPost(t: string): Post
  {
    Post(None, Some(t), None, None, None, None, None, None, None, None, None, None)
  }

  /** The position of the first saved row with title `t`, or `|cfg|` when there is none. */
  function FirstSaved(cfg: seq<ConfigRow>, t: Option<string>): (k: nat)
    ensures k <= |cfg|
    ensures forall j :: 0 <= j < k ==> cfg[j].title != t
    ensures k < |cfg| ==> cfg[k].title == t
  {
    if |cfg| == 0 then 0
    else if cfg[0].title == t then 0
    else 1 + FirstSaved(cfg[1..], t)
  }

  /** The flag of one post when only its title's first saved row counts. */
  function FirstSavedFlag(cfg: seq<ConfigRow>, t: Option<string>): bool
  {
    var k := FirstSaved(cfg, t);
    if k < |cfg| then cfg[k].boosted.GetOr(false) else false
  }

  /**
   * Corrected merge: the configuration is reduced to one row per title (its
   * first) before joining, so the table keeps exactly one row per post.
   */
  function BoostTableFirstSaved(posts: seq<Post>, config: Option<ConfigFile>): (r: seq<BoostRow>)
    ensures |r| == |posts|
    ensures forall i :: 0 <= i < |posts| ==> r[i].created == posts[i].created && r[i].title == posts[i].title
    ensures config.None? ==> forall i :: 0 <= i < |posts| ==> !r[i].boosted
    ensures forall i :: 0 <= i < |posts| && r[i].boosted ==>
      config.Some? && ConfigRow(posts[i].title, Some(true)) in config.value.rows
    ensures forall i :: 0 <= i < |posts| ==>
      r[i].boosted == (config.Some? &&
        var k := FirstSaved(config.value.rows, posts[i].title);
        k < |config.value.rows| && config.value.rows[k].boosted == Some(true))
  {
    seq(|posts|, i requires 0 <= i < |posts| =>
      BoostRow(posts[i].created, posts[i].title,
        match config
        case Some(f) => FirstSavedFlag(f.rows, posts[i].title)
        case None => false))
  }

  /** Where saved titles are unique the correction agrees with the source's join. */
  lemma FirstSavedAgreesOnUniqueTitles(posts: seq<Post>, f: ConfigFile)
    requires DistinctSavedTitles(f.rows)
    ensures BoostTableFirstSaved(posts, Some(f)) == BoostTable(posts, Some(f))
  {
    UniqueSavedTitlesMerge(posts, f);
    var a := BoostTableFirstSaved(posts, Some(f));
    var b := BoostTable(posts, Some(f));
    forall i | 0 <= i < |posts|
      ensures a[i] == b[i]
    {
      var t := posts[i].title;
      var k := FirstSaved(f.rows, t);
      if ConfigRow(t, Some(true)) in f.rows {
        var m :| 0 <= m < |f.rows| && f.rows[m] == ConfigRow(t, Some(true));
        assert k == m;
      }
    }
  }

  /** The first-saved position depends only on the saved titles. */
  lemma FirstSavedByTitles(a: seq<ConfigRow>, b: seq<ConfigRow>, t: Option<string>)
    requires |a| == |b|
    requires forall j :: 0 <= j < |a| ==> a[j].title == b[j].title
    ensures FirstSaved(a, t) == FirstSaved(b, t)
  {
  }

  /**
   * With the correction a save/upload cycle keeps one row per post, and a
   * second cycle changes nothing, even when titles repeat.
   */
  lemma FirstSavedCycleSettles(posts: seq<Post>, flags: seq<bool>)
    requires |flags| == |posts|
    ensures var once := BoostTableFirstSaved(posts, Some(Export(Edited(posts, flags))));
      BoostTableFirstSaved(posts, Some(Export(once))) == once
  {
    var e0 := Export(Edited(posts, flags)).rows;
    var once := BoostTableFirstSaved(posts, Some(Export(Edited(posts, flags))));
    var e1 := Export(once).rows;
    var twice := BoostTableFirstSaved(posts, Some(Export(once)));
    forall i | 0 <= i < |posts|
      ensures twice[i] == once[i]
    {
      var t := posts[i].title;
      FirstSavedByTitles(e0, e1, t);
      var k := FirstSaved(e0, t);
      assert e0[i].title == t;
      assert k < |e0|;
      assert posts[k].title == t;
      FirstSavedByTitles(e0, e1, posts[k].title);
    }
  }

  /** With the correction, distinct titles round-trip exactly as with the source's join. */
  lemma FirstSavedRoundTrip(posts: seq<Post>, flags: seq<bool>)
    requires |flags| == |posts|
    requires DistinctTitles(posts)
    ensures BoostTableFirstSaved(posts, ValidateConfig(Some(Export(Edited(posts, flags))))) == Edited(posts, flags)
  {
    var f := Export(Edited(posts, flags));
    assert DistinctSavedTitles(f.rows);
    ExportReloadRoundTrip(posts, flags);
    FirstSavedAgreesOnUniqueTitles(posts, f);
  }
}

=== FILE: filters.dfy ===
/**
 * The filter engine: the posts table restricted to the chosen date window and,
 * when tags are selected, to titles mentioning one of them.
 */
module Filters {
  import opened Options
  import opened Text
  import opened Seqs
  import opened Posts
  import Hashtags

  /**
   * `(date >= start) & (date <= end)`: a missing date (NaT) compares false on
   * both sides, so it is never in a window.
   */
  predicate InWindow(d: Option<int>, start: int, end: int)
  {
    d.Some? && start <= d.value <= end
  }

  /**
   * The date widget's value restricts the table only when it holds exactly two
   * dates; while the user has picked one end only, nothing is filtered.
   */
  ghost predicate DateInRange(d: Option<int>, dateRange: seq<int>)
  {
    |dateRange| == 2 ==> d.Some? && dateRange[0] <= d.value <= dateRange[1]
  }

  /** A post passes the date selection when its creation date is in range. */
  ghost predicate DateSelected(p: Post, dateRange: seq<int>)
  {
    DateInRange(p.created, dateRange)
  }

  function FilterByDate(posts: seq<Post>, dateRange: seq<int>): (r: seq<Post>)
    ensures IsSubseq(r, posts)
    ensures |dateRange| != 2 ==> r == posts
    ensures forall p :: p in r <==> p in posts && DateSelected(p, dateRange)
  {
    if |dateRange| == 2 then
      Filter(posts, (p: Post) => InWindow(p.created, dateRange[0], dateRange[1]))
    else
      SubseqRefl(posts);
      posts
  }

  /** The date window keeps every copy of each selected row and no copy of any other. */
  lemma FilterByDateCounts(posts: seq<Post>, dateRange: seq<int>)
    ensures forall p ::
      multiset(FilterByDate(posts, dateRange))[p] ==
      (if DateSelected(p, dateRange) then multiset(posts)[p] else 0)
  {
    if |dateRange| == 2 {
      FilterCounts(posts, (p: Post) => InWindow(p.created, dateRange[0], dateRange[1]));
    }
  }

  /** `.astype(str)` renders a missing title as `"nan"` before the search. */
  function TitleText(t: Option<string>): string
  {
    match t
    case Some(s) => s
    case None => "nan"
  }

  /**
   * `str.contains("|".join(re.escape(t) for t in tags), case=False)`: some tag
   * occurs in the text literally, ignoring case.
   */
  function MatchesAnyTag(text: string, tags: seq<string>): (b: bool)
    ensures b <==> exists k :: 0 <= k < |tags| && IsSubstring(Lower(tags[k]), Lower(text))
  {
    if |tags| == 0 then
      false
    else
      var rest := MatchesAnyTag(text, tags[1..]);
      assert forall k :: 1 <= k < |tags| ==> tags[k] == tags[1..][k - 1];
      Contains(Lower(text), Lower(tags[0])) || rest
  }

  ghost predicate TitleHasTag(p: Post, tags: seq<string>)
  {
    exists k :: 0 <= k < |tags| && IsSubstring(Lower(tags[k]), Lower(TitleText(p.title)))
  }

  /** An empty selection keeps every row; otherwise the tags are combined with OR. */
  ghost predicate TagSelected(p: Post, tags: seq<string>)
  {
    |tags| > 0 ==> TitleHasTag(p, tags)
  }

  function FilterByTags(posts: seq<Post>, tags: seq<string>): (r: seq<Post>)
    ensures IsSubseq(r, posts)
    ensures |tags| == 0 ==> r == posts
    ensures forall p :: p in r <==> p in posts && TagSelected(p, tags)
  {
    if |tags| == 0 then
      SubseqRefl(posts);
      posts
    else
      Filter(posts, (p: Post) => MatchesAnyTag(TitleText(p.title), tags))
  }

  /** The tag selection keeps every copy of each matching row and no copy of any other. */
  lemma FilterByTagsCounts(posts: seq<Post>, tags: seq<string>)
    ensures forall p ::
      multiset(FilterByTags(posts, tags))[p] ==
      (if TagSelected(p, tags) then multiset(posts)[p] else 0)
  {
    if |tags| > 0 {
      FilterCounts(posts, (p: Post) => MatchesAnyTag(TitleText(p.title), tags));
    }
  }

  /** The filtered posts: date window first, then the tag selection. */
  function FilterPosts(posts: seq<Post>, dateRange: seq<int>, tags: seq<string>): (r: seq<Post>)
    ensures IsSubseq(r, posts)
    ensures forall p :: p in r <==> p in posts && DateSelected(p, dateRange) && TagSelected(p, tags)
  {
    var byDate := FilterByDate(posts, dateRange);
    var r := FilterByTags(byDate, tags);
    SubseqTrans(r, byDate, posts);
    r
  }

  /** The filtered posts hold every copy of each row passing both selections and no copy of any other. */
  lemma FilterPostsCounts(posts: seq<Post>, dateRange: seq<int>, tags: seq<string>)
    ensures forall p ::
      multiset(FilterPosts(posts, dateRange, tags))[p] ==
      (if DateSelected(p, dateRange) && TagSelected(p, tags) then multiset(posts)[p] else 0)
  {
    FilterByDateCounts(posts, dateRange);
    FilterByTagsCounts(FilterByDate(posts, dateRange), tags);
  }

  /** A row without a title never matches a tag that starts with `#`, such as every extracted tag. */
  lemma MissingTitleNeverMatches(p: Post, tags: seq<string>)
    requires p.title.None?
    requires forall k :: 0 <= k < |tags| ==> Hashtags.IsHashtag(tags[k])
    ensures !TitleHasTag(p, tags)
  {
    forall k | 0 <= k < |tags|
      ensures !IsSubstring(Lower(tags[k]), Lower(TitleText(p.title)))
    {
      assert Lower(tags[k])[0] == '#';
      NotSubstringWithout(Lower(tags[k]), Lower("nan"), 0, '#');
    }
  }

  /** Applying the tag selection before the date window gives the same table. */
  lemma {:induction false} FiltersCommute(posts: seq<Post>, dateRange: seq<int>, tags: seq<string>)
    ensures FilterByDate(FilterByTags(posts, tags), dateRange) == FilterPosts(posts, dateRange, tags)
  {
    if |dateRange| == 2 && |tags| > 0 {
      FilterCommute(posts,
        (p: Post) => InWindow(p.created, dateRange[0], dateRange[1]),
        (p: Post) => MatchesAnyTag(TitleText(p.title), tags));
    }
  }
}

=== FILE: hashtags.dfy ===
/**
 * `extract_hashtags`: every match of `#\w+` in the non-missing post titles,
 * collected into a set and sorted by the lower-cased tag.
 */
module Hashtags {
  import opened Options
  import opened Text
  import opened Seqs

  /** The first position at or after `j` that is not a word character, or `|s|`. */
  function WordEnd(s: string, j: nat): (e: nat)
    requires j <= |s|
    ensures j <= e <= |s|
    ensures forall k :: j <= k < e ==> IsWordChar(s[k])
    ensures e == |s| || !IsWordChar(s[e])
    decreases |s| - j
  {
    if j == |s| || !IsWordChar(s[j]) then j else WordEnd(s, j + 1)
  }

  /** A match of `#\w+` can begin at position `i`. */
  predicate IsTagStart(s: string, i: int)
  {
    0 <= i && i + 1 < |s| && s[i] == '#' && IsWordChar(s[i + 1])
  }

  /** The longest match of `#\w+` beginning at `i` (the regex is greedy). */
  function TagAt(s: string, i: int): string
    requires IsTagStart(s, i)
  {
    s[i..WordEnd(s, i + 1)]
  }

  /** The shape of every match: `#` followed by one or more word characters. */
  ghost predicate IsHashtag(t: string)
  {
    |t| >= 2 && t[0] == '#' && forall k :: 1 <= k < |t| ==> IsWordChar(t[k])
  }

  /** `t` is one of the matches of `#\w+` in `s`. */
  ghost predicate OccursAsTag(t: string, s: string)
  {
    exists k :: IsTagStart(s, k) && TagAt(s, k) == t
  }

  /**
   * `re.findall(r"#\w+", s[i..])`: the scan tries each position from the left
   * and resumes after the end of each match.
   */
  function FindTags(s: string, i: nat): (r: seq<string>)
    requires i <= |s|
    ensures forall t :: t in r ==> IsHashtag(t)
    ensures forall t :: t in r <==> exists k :: i <= k && IsTagStart(s, k) && TagAt(s, k) == t
    decreases |s| - i
  {
    if i == |s| then
      []
    else if IsTagStart(s, i) then
      var e := WordEnd(s, i + 1);
      NoTagStartInWord(s, i, e);
      [s[i..e]] + FindTags(s, e)
    else
      FindTags(s, i + 1)
  }

  /** No match begins inside a run of word characters, since `#` is not one. */
  lemma NoTagStartInWord(s: string, i: int, e: int)
    requires 0 <= i < e <= |s|
    requires forall k :: i < k < e ==> IsWordChar(s[k])
    ensures forall k :: i < k < e ==> !IsTagStart(s, k)
  {
  }

  /** All matches in the non-missing titles, title by title (`series.dropna()`). */
  function AllTags(titles: seq<Option<string>>): seq<string>
  {
    if |titles| == 0 then []
    else
      (match titles[0]
       case Some(t) => FindTags(t, 0)
       case None => []) + AllTags(titles[1..])
  }

  /** The matches collected from all titles are exactly the tags occurring in some non-missing title. */
  lemma {:induction false} AllTagsExact(titles: seq<Option<string>>)
    ensures forall t :: t in AllTags(titles) <==>
      exists k :: 0 <= k < |titles| && titles[k].Some? && OccursAsTag(t, titles[k].value)
    ensures forall t :: t in AllTags(titles) ==> IsHashtag(t)
  {
    if |titles| > 0 {
      AllTagsExact(titles[1..]);
      var head := match titles[0] case Some(t) => FindTags(t, 0) case None => [];
      assert AllTags(titles) == head + AllTags(titles[1..]);
      forall t
        ensures t in AllTags(titles) <==>
          exists k :: 0 <= k < |titles| && titles[k].Some? && OccursAsTag(t, titles[k].value)
      {
        if t in AllTags(titles[1..]) {
          var k :| 0 <= k < |titles[1..]| && titles[1..][k].Some? && OccursAsTag(t, titles[1..][k].value);
          assert titles[k + 1] == titles[1..][k];
        }
        if k :| 0 <= k < |titles| && titles[k].Some? && OccursAsTag(t, titles[k].value) {
          if k > 0 {
            assert titles[1..][k - 1] == titles[k];
          }
        }
      }
    }
  }

  /** The sort key `str.lower`, compared as Python compares strings. */
  predicate KeyLe(a: string, b: string)
  {
    LexLe(Lower(a), Lower(b))
  }

  ghost predicate SortedByKey(s: seq<string>)
  {
    forall i, j :: 0 <= i < j < |s| ==> KeyLe(s[i], s[j])
  }

  /** Places `x` before the first element whose key is not below it. */
  function InsertByKey(x: string, s: seq<string>): (r: seq<string>)
    requires SortedByKey(s)
    ensures SortedByKey(r)
    ensures multiset(r) == multiset(s) + multiset{x}
  {
    if |s| == 0 then
      [x]
    else if KeyLe(x, s[0]) then
      forall j | 0 < j < |s|
        ensures KeyLe(x, s[j])
      {
        LexLeTransitive(Lower(x), Lower(s[0]), Lower(s[j]));
      }
      [x] + s
    else
      LexLeTotal(Lower(x), Lower(s[0]));
      var rest := InsertByKey(x, s[1..]);
      assert s == [s[0]] + s[1..];
      forall j | 0 <= j < |rest|
        ensures KeyLe(s[0], rest[j])
      {
        assert rest[j] in multiset(rest);
        if rest[j] != x {
          var m :| 0 <= m < |s[1..]| && s[1..][m] == rest[j];
          assert s[m + 1] == rest[j];
        }
      }
      [s[0]] + rest
  }

  /** Insertion sort by `str.lower`. */
  function SortByKey(s: seq<string>): (r: seq<string>)
    ensures SortedByKey(r)
    ensures multiset(r) == multiset(s)
  {
    if |s| == 0 then []
    else
      assert s == [s[0]] + s[1..];
      InsertByKey(s[0], SortByKey(s[1..]))
  }

  /**
   * `extract_hashtags(series)`: `None` (no title column) gives `[]`; otherwise
   * each tag found in some non-missing title, once, ordered by its lower-cased form,
   * with its original casing kept.
   */
  function ExtractHashtags(column: Option<seq<Option<string>>>): (r: seq<string>)
    ensures column.None? ==> r == []
    ensures NoDups(r)
    ensures SortedByKey(r)
    ensures forall t :: t in r ==> IsHashtag(t)
    ensures column.Some? ==> forall t :: t in r <==>
      exists k :: 0 <= k < |column.value| && column.value[k].Some? && OccursAsTag(t, column.value[k].value)
  {
    match column
    case None => []
    case Some(titles) =>
      AllTagsExact(titles);
      var unique := Dedup(AllTags(titles));
      var r := SortByKey(unique);
      forall t
        ensures t in r <==> t in AllTags(titles)
      {
        assert t in r <==> t in multiset(r);
        assert t in unique <==> t in multiset(unique);
      }
      r
  }
}

=== FILE: options.dfy ===
/** A missing cell: pandas' NaN / NaT (and Python's None) become `None`. */
module Options {

  datatype Option<+T> = None | Some(value: T) {

    /** The held value, or `default` when missing (pandas' `fillna`). */
    function GetOr(default: T): T
    {
      match this
      case Some(v) => v
      case None => default
    }
  }
}

=== FILE: posts.dfy ===
/**
 * The normalized posts table (`read_posts_csv`) and its click-through-rate
 * rescale: one global rule, applied once at load time.
 */
module Posts {
  import opened Options

  /**
   * One row of the posts export after renaming and type coercion. Dates are
   * day numbers; a cell the coercion could not parse is `None`.
   */
  datatype Post = Post(
    created: Option<int>,
    title: Option<string>,
    link: Option<string>,
    postType: Option<string>,
    impressions: Option<int>,
    clicks: Option<int>,
    ctr: Option<real>,
    likes: Option<int>,
    comments: Option<int>,
    reposts: Option<int>,
    follows: Option<int>,
    engagementRate: Option<real>)

  /** `Series.max()`: the largest non-missing value, `None` (NaN) when there is none. */
  function ColumnMax(col: seq<Option<real>>): (m: Option<real>)
    ensures m.None? <==> forall i :: 0 <= i < |col| ==> col[i].None?
    ensures m.Some? ==> m in col
    ensures m.Some? ==> forall i :: 0 <= i < |col| && col[i].Some? ==> col[i].value <= m.value
  {
    if |col| == 0 then None
    else
      assert col == [col[0]] + col[1..];
      var rest := ColumnMax(col[1..]);
      match col[0]
      case None => rest
      case Some(v) => if rest.Some? && rest.value > v then rest else Some(v)
  }

  function CtrColumn(rows: seq<Post>): seq<Option<real>>
  {
    seq(|rows|, i requires 0 <= i < |rows| => rows[i].ctr)
  }

  /** `x * 100` on a cell; NaN stays NaN. */
  function Times100(x: Option<real>): Option<real>
  {
    match x
    case Some(v) => Some(v * 100.0)
    case None => None
  }

  /** Some CTR is present and every present CTR is at most 1: the values look like fractions. */
  ghost predicate CtrLooksFractional(rows: seq<Post>)
  {
    && (exists i :: 0 <= i < |rows| && rows[i].ctr.Some?)
    && (forall i :: 0 <= i < |rows| && rows[i].ctr.Some? ==> rows[i].ctr.value <= 1.0)
  }

  /**
   * `if df["CTR"].max() <= 1: df["CTR"] = df["CTR"] * 100`. A column with no
   * present value has a NaN maximum, and `NaN <= 1` is false. For this step
   * alone, a table without a CTR column is left as it is, as an all-missing
   * column is.
   */
  function RescaleCtr(rows: seq<Post>): (r: seq<Post>)
    ensures |r| == |rows|
    ensures CtrLooksFractional(rows) ==>
      forall i :: 0 <= i < |rows| ==> r[i] == rows[i].(ctr := Times100(rows[i].ctr))
    ensures !CtrLooksFractional(rows) ==> r == rows
  {
    var m := ColumnMax(CtrColumn(rows));
    MaxDecidesFractional(rows);
    if m.Some? && m.value <= 1.0 then
      seq(|rows|, i requires 0 <= i < |rows| => rows[i].(ctr := Times100(rows[i].ctr)))
    else
      rows
  }

  /** The maximum test of the source decides exactly whether the CTR values look like fractions. */
  lemma MaxDecidesFractional(rows: seq<Post>)
    ensures CtrLooksFractional(rows) <==>
      var m := ColumnMax(CtrColumn(rows)); m.Some? && m.value <= 1.0
  {
    var col := CtrColumn(rows);
    assert forall i :: 0 <= i < |rows| ==> col[i] == rows[i].ctr;
    var m := ColumnMax(col);
    if m.Some? && m.value <= 1.0 {
      var k :| 0 <= k < |col| && col[k] == m;
      assert rows[k].ctr.Some?;
    }
    if CtrLooksFractional(rows) {
      var i :| 0 <= i < |rows| && rows[i].ctr.Some?;
      assert col[i].Some?;
      var k :| 0 <= k < |col| && col[k] == m;
      assert rows[k].ctr.value <= 1.0;
    }
  }

  /** After the rescale every present CTR is at most 100 whenever the rule fired. */
  lemma RescaledCtrIsPercentage(rows: seq<Post>)
    requires CtrLooksFractional(rows)
    ensures forall i :: 0 <= i < |rows| && RescaleCtr(rows)[i].ctr.Some? ==>
      RescaleCtr(rows)[i].ctr.value <= 100.0
  {
  }

  /**
   * Running the rule a second time leaves the table alone once some rescaled
   * value exceeds 1, i.e. when some original fraction exceeded 0.01.
   */
  lemma RescaleSettles(rows: seq<Post>, k: int)
    requires CtrLooksFractional(rows)
    requires 0 <= k < |rows| && rows[k].ctr.Some? && rows[k].ctr.value > 0.01
    ensures RescaleCtr(RescaleCtr(rows)) == RescaleCtr(rows)
  {
  }

  /**
   * The rule is not idempotent: a column whose values are all at most 0.01 is
   * multiplied by 100 again on a second pass, which is why the dashboard applies
   * it only once, at load time.
   */
  lemma RescaleTwiceScalesAgain()
    ensures var rows := [Post(None, None, None, None, None, None, Some(0.005), None, None, None, None, None)];
      RescaleCtr(RescaleCtr(rows))[0].ctr == Some(50.0)
  {
    var rows := [Post(None, None, None, None, None, None, Some(0.005), None, None, None, None, None)];
    assert CtrLooksFractional(rows) by {
      assert rows[0].ctr.Some?;
    }
    var once := RescaleCtr(rows);
    assert once[0].ctr == Some(0.5);
    assert CtrLooksFractional(once) by {
      assert once[0].ctr.Some?;
    }
  }
}

=== FILE: seqs.dfy ===
/** Row-subset operations on tables held as sequences. */
module Seqs {

  /** `a` is `b` with some elements left out, the rest in their order. */
  ghost predicate IsSubseq<T>(a: seq<T>, b: seq<T>)
    decreases |b|
  {
    |a| == 0 || (|b| > 0 && ((a[0] == b[0] && IsSubseq(a[1..], b[1..])) || IsSubseq(a, b[1..])))
  }

  /** Every value occurs at most once. */
  ghost predicate NoDups<T(!new)>(s: seq<T>)
  {
    forall x :: multiset(s)[x] <= 1
  }

  /** Boolean-mask selection `df[mask]`: the rows satisfying `p`, in table order. */
  function Filter<T(!new)>(s: seq<T>, p: T -> bool): (r: seq<T>)
    ensures IsSubseq(r, s)
    ensures forall x :: x in r <==> x in s && p(x)
  {
    if |s| == 0 then []
    else
      var rest := Filter(s[1..], p);
      if p(s[0]) then
        assert ([s[0]] + rest)[1..] == rest;
        [s[0]] + rest
      else
        rest
  }

  /** Selection keeps every copy of each row satisfying `p` and no copy of any other. */
  lemma {:induction false} FilterCounts<T(!new)>(s: seq<T>, p: T -> bool)
    ensures forall x :: multiset(Filter(s, p))[x] == if p(x) then multiset(s)[x] else 0
  {
    if |s| > 0 {
      FilterCounts(s[1..], p);
      assert s == [s[0]] + s[1..];
    }
  }

  /** Selecting by a predicate nothing satisfies leaves nothing. */
  lemma {:induction false} FilterNone<T(!new)>(s: seq<T>, p: T -> bool)
    requires forall i :: 0 <= i < |s| ==> !p(s[i])
    ensures Filter(s, p) == []
  {
    if |s| > 0 {
      FilterNone(s[1..], p);
    }
  }

  /** Selecting by a predicate every row satisfies keeps the table. */
  lemma {:induction false} FilterAll<T(!new)>(s: seq<T>, p: T -> bool)
    requires forall i :: 0 <= i < |s| ==> p(s[i])
    ensures Filter(s, p) == s
  {
    if |s| > 0 {
      FilterAll(s[1..], p);
      assert s == [s[0]] + s[1..];
    }
  }

  /** Selecting by a predicate exactly one row satisfies leaves that row. */
  lemma {:induction false} FilterSingle<T(!new)>(s: seq<T>, p: T -> bool, k: int)
    requires 0 <= k < |s| && p(s[k])
    requires forall i :: 0 <= i < |s| && i != k ==> !p(s[i])
    ensures Filter(s, p) == [s[k]]
  {
    if k == 0 {
      FilterNone(s[1..], p);
    } else {
      FilterSingle(s[1..], p, k - 1);
    }
  }

  /** Selection distributes over concatenation. */
  lemma {:induction false} FilterAppend<T(!new)>(a: seq<T>, b: seq<T>, p: T -> bool)
    ensures Filter(a + b, p) == Filter(a, p) + Filter(b, p)
  {
    if |a| == 0 {
      assert a + b == b;
    } else {
      var ab := a + b;
      assert ab[0] == a[0] && ab[1..] == a[1..] + b;
      FilterAppend(a[1..], b, p);
    }
  }

  /** Two successive selections can be applied in either order. */
  lemma {:induction false} FilterCommute<T(!new)>(s: seq<T>, p: T -> bool, q: T -> bool)
    ensures Filter(Filter(s, p), q) == Filter(Filter(s, q), p)
  {
    if |s| > 0 {
      FilterCommute(s[1..], p, q);
    }
  }

  /** A relation that holds between every earlier and later element of `b` holds in any subsequence. */
  lemma {:induction false} SubseqKeepsOrder<T>(a: seq<T>, b: seq<T>, rel: (T, T) -> bool)
    requires IsSubseq(a, b)
    requires forall i, j :: 0 <= i < j < |b| ==> rel(b[i], b[j])
    ensures forall i, j :: 0 <= i < j < |a| ==> rel(a[i], a[j])
    decreases |b|
  {
    if |a| > 0 {
      if a[0] == b[0] && IsSubseq(a[1..], b[1..]) {
        SubseqKeepsOrder(a[1..], b[1..], rel);
        SubseqMembers(a[1..], b[1..]);
        forall i, j | 0 <= i < j < |a|
          ensures rel(a[i], a[j])
        {
          if i > 0 {
            assert a[i] == a[1..][i - 1] && a[j] == a[1..][j - 1];
          } else {
            assert a[j] == a[1..][j - 1];
            var m :| 0 <= m < |b[1..]| && b[1..][m] == a[j];
            assert b[m + 1] == a[j];
          }
        }
      } else {
        SubseqKeepsOrder(a, b[1..], rel);
      }
    }
  }

  lemma {:induction false} SubseqRefl<T>(s: seq<T>)
    ensures IsSubseq(s, s)
  {
    if |s| > 0 {
      SubseqRefl(s[1..]);
    }
  }

  lemma {:induction false} SubseqTrans<T>(a: seq<T>, b: seq<T>, c: seq<T>)
    requires IsSubseq(a, b) && IsSubseq(b, c)
    ensures IsSubseq(a, c)
    decreases |c|
  {
    if |a| > 0 {
      if IsSubseq(b, c[1..]) {
        SubseqTrans(a, b, c[1..]);
      } else if a[0] == b[0] && IsSubseq(a[1..], b[1..]) {
        SubseqTrans(a[1..], b[1..], c[1..]);
      } else {
        SubseqTrans(a, b[1..], c[1..]);
      }
    }
  }

  /** Every element of a subsequence is an element of the whole. */
  lemma {:induction false} SubseqMembers<T>(a: seq<T>, b: seq<T>)
    requires IsSubseq(a, b)
    ensures forall i :: 0 <= i < |a| ==> exists m :: 0 <= m < |b| && b[m] == a[i]
    decreases |b|
  {
    if |a| > 0 {
      if a[0] == b[0] && IsSubseq(a[1..], b[1..]) {
        SubseqMembers(a[1..], b[1..]);
        forall i | 0 <= i < |a|
          ensures exists m :: 0 <= m < |b| && b[m] == a[i]
        {
          if i == 0 {
            assert b[0] == a[0];
          } else {
            assert a[i] == a[1..][i - 1];
            var m :| 0 <= m < |b[1..]| && b[1..][m] == a[i];
            assert b[m + 1] == a[i];
          }
        }
      } else {
        SubseqMembers(a, b[1..]);
        forall i | 0 <= i < |a|
          ensures exists m :: 0 <= m < |b| && b[m] == a[i]
        {
          var m :| 0 <= m < |b[1..]| && b[1..][m] == a[i];
          assert b[m + 1] == a[i];
        }
      }
    }
  }

  /** Pairwise-distinct elements occur once each. */
  lemma {:induction false} DistinctNoDups<T(!new)>(s: seq<T>)
    requires forall i, j :: 0 <= i < j < |s| ==> s[i] != s[j]
    ensures NoDups(s)
  {
    if |s| > 0 {
      DistinctNoDups(s[1..]);
      assert s == [s[0]] + s[1..];
      assert s[0] !in s[1..];
    }
  }

  /** One copy of each value, keeping its last occurrence. */
  function Dedup<T(==,!new)>(s: seq<T>): (r: seq<T>)
    ensures NoDups(r)
    ensures forall x :: x in r <==> x in s
  {
    if |s| == 0 then []
    else
      var rest := Dedup(s[1..]);
      if s[0] in rest then rest else [s[0]] + rest
  }
}

=== FILE: text.dfy ===
/**
 * Character classes and string operations the dashboard relies on, over ASCII:
 * the regular-expression class `\w`, `str.lower`, substring search, and
 * Python's ordering of strings (code point by code point).
 */
module Text {

  /** `\w` restricted to ASCII: letters, digits and the underscore. */
  predicate IsWordChar(c: char)
  {
    ('a' <= c <= 'z') || ('A' <= c <= 'Z') || ('0' <= c <= '9') || c == '_'
  }

  /** `str.lower` on one ASCII character. */
  function LowerChar(c: char): char
  {
    if 'A' <= c <= 'Z' then (c as int + 32) as char else c
  }

  /** `str.lower` over ASCII. */
  function Lower(s: string): string
  {
    seq(|s|, i requires 0 <= i < |s| => LowerChar(s[i]))
  }

  /** `needle` sits in `hay` starting at position `i`. */
  ghost predicate OccursAt(needle: string, hay: string, i: int)
  {
    0 <= i && i + |needle| <= |hay| && hay[i..i + |needle|] == needle
  }

  /** Python's `needle in hay`. */
  ghost predicate IsSubstring(needle: string, hay: string)
  {
    exists i :: OccursAt(needle, hay, i)
  }

  predicate StartsWith(hay: string, prefix: string)
  {
    |prefix| <= |hay| && hay[..|prefix|] == prefix
  }

  /** Substring search, tried at every start position from the left. */
  function Contains(hay: string, needle: string): (b: bool)
    ensures b <==> IsSubstring(needle, hay)
    decreases |hay|
  {
    if StartsWith(hay, needle) then
      assert OccursAt(needle, hay, 0);
      true
    else if |hay| == 0 then
      false
    else
      ContainsStep(hay, needle);
      Contains(hay[1..], needle)
  }

  /** Away from position 0, an occurrence in `hay` is an occurrence in its tail. */
  lemma ContainsStep(hay: string, needle: string)
    requires |hay| > 0 && !StartsWith(hay, needle)
    ensures IsSubstring(needle, hay) <==> IsSubstring(needle, hay[1..])
  {
    if i :| OccursAt(needle, hay, i) {
      assert i != 0;
      assert hay[1..][i - 1..i - 1 + |needle|] == hay[i..i + |needle|];
      assert OccursAt(needle, hay[1..], i - 1);
    }
    if j :| OccursAt(needle, hay[1..], j) {
      assert hay[j + 1..j + 1 + |needle|] == hay[1..][j..j + |needle|];
      assert OccursAt(needle, hay, j + 1);
    }
  }

  /** A string holding no `c` has no substring holding `c`. */
  lemma NotSubstringWithout(needle: string, hay: string, k: int, c: char)
    requires 0 <= k < |needle| && needle[k] == c
    requires forall j :: 0 <= j < |hay| ==> hay[j] != c
    ensures !IsSubstring(needle, hay)
  {
  }

  /** Python's `a <= b` on strings: lexicographic by code point. */
  predicate LexLe(a: string, b: string)
    decreases |a|
  {
    |a| == 0 || (|b| > 0 && (a[0] < b[0] || (a[0] == b[0] && LexLe(a[1..], b[1..]))))
  }

  /** Any two strings are comparable. */
  lemma {:induction false} LexLeTotal(a: string, b: string)
    ensures LexLe(a, b) || LexLe(b, a)
    decreases |a|
  {
    if |a| > 0 && |b| > 0 && a[0] == b[0] {
      LexLeTotal(a[1..], b[1..]);
    }
  }

  lemma {:induction false} LexLeTransitive(a: string, b: string, c: string)
    requires LexLe(a, b) && LexLe(b, c)
    ensures LexLe(a, c)
    decreases |a|
  {
    if |a| > 0 && a[0] == b[0] && b[0] == c[0] {
      LexLeTransitive(a[1..], b[1..], c[1..]);
    }
  }
}

=== FILE: trends.dfy ===
/**
 * The site-trend table: the metric columns in display order, the metrics
 * table restricted to the date window, and its wide-to-long reshape
 * (`melt("Date")` followed by `dropna()`).
 */
module Trends {
  import opened Options
  import opened Seqs
  import Filters

  const DateColumn := "Date"

  /** A column of the metrics table after coercion, and whether its dtype is numeric. */
  datatype Column = Column(name: string, numeric: bool)

  /** The names of the columns, in table order. */
  function Names(cols: seq<Column>): (r: seq<string>)
    ensures |r| == |cols|
    ensures forall i :: 0 <= i < |cols| ==> r[i] == cols[i].name
  {
    seq(|cols|, i requires 0 <= i < |cols| => cols[i].name)
  }

  /** A column is a metric when it is numeric and is not `Date`. */
  predicate IsMetric(col: Column)
  {
    col.numeric && col.name != DateColumn
  }

  /** `metric_cols`: the numeric columns other than `Date`, in table order. */
  function MetricColumns(cols: seq<Column>): (r: seq<string>)
    ensures IsSubseq(r, Names(cols))
    ensures forall c :: c in r <==> exists i :: 0 <= i < |cols| && cols[i].name == c && cols[i].numeric && c != DateColumn
  {
    if |cols| == 0 then []
    else
      var rest := MetricColumns(cols[1..]);
      assert forall i :: 1 <= i < |cols| ==> cols[i] == cols[1..][i - 1];
      assert Names(cols)[1..] == Names(cols[1..]);
      if cols[0].name != DateColumn && cols[0].numeric then
        assert ([cols[0].name] + rest)[1..] == rest;
        [cols[0].name] + rest
      else
        rest
  }

  /**
   * The metric columns are the names of the metric columns of the table, in
   * table order and with repeats kept.
   */
  lemma {:induction false} MetricColumnsAreMetricNames(cols: seq<Column>)
    ensures MetricColumns(cols) == Names(Filter(cols, IsMetric))
  {
    if |cols| > 0 {
      MetricColumnsAreMetricNames(cols[1..]);
      assert Names(Filter(cols, IsMetric)) ==
        (if IsMetric(cols[0]) then [cols[0].name] else []) + Names(Filter(cols[1..], IsMetric));
    }
  }

  const Preferred: seq<string> := [
    "Impressions (total)",
    "Clicks (total)",
    "Reactions (total)",
    "Comments (total)",
    "Reposts (total)",
    "Engagement rate (total)"
  ]

  predicate NotPreferred(c: string)
  {
    c !in Preferred
  }

  /** The first position of `c` in `s`, or `|s|`. */
  function IndexIn(s: seq<string>, c: string): (k: nat)
    ensures k <= |s|
    ensures k < |s| ==> s[k] == c
    ensures forall j :: 0 <= j < k ==> s[j] != c
  {
    if |s| == 0 then 0
    else if s[0] == c then 0
    else 1 + IndexIn(s[1..], c)
  }

  /** Position in the preferred order; every other name ranks after all of them. */
  function Rank(c: string): nat
  {
    IndexIn(Preferred, c)
  }

  lemma PreferredDistinct()
    ensures forall i, j :: 0 <= i < j < |Preferred| ==> Preferred[i] != Preferred[j]
  {
  }

  /** Each preferred name ranks at its own position. */
  lemma PreferredRanks()
    ensures forall k :: 0 <= k < |Preferred| ==> Rank(Preferred[k]) == k
  {
    PreferredDistinct();
  }

  /** A name ranks after every preferred position exactly when it is not preferred. */
  lemma RankOfNotPreferred(c: string)
    ensures Rank(c) <= |Preferred|
    ensures Rank(c) == |Preferred| <==> NotPreferred(c)
  {
  }

  /** The preferred names present among the metric columns, in preferred order. */
  function PresentPreferred(metricCols: seq<string>): seq<string>
  {
    Filter(Preferred, (c: string) => c in metricCols)
  }

  lemma PresentPreferredFacts(metricCols: seq<string>)
    ensures var p := PresentPreferred(metricCols);
      && (forall c :: c in p <==> c in Preferred && c in metricCols)
      && (forall i :: 0 <= i < |p| ==> Rank(p[i]) < |Preferred|)
      && (forall i, j :: 0 <= i < j < |p| ==> Rank(p[i]) < Rank(p[j]))
  {
    var p := PresentPreferred(metricCols);
    PreferredRanks();
    SubseqKeepsOrder(p, Preferred, (a: string, b: string) => Rank(a) < Rank(b));
    forall i | 0 <= i < |p|
      ensures Rank(p[i]) < |Preferred|
    {
      assert p[i] in p;
      RankOfNotPreferred(p[i]);
    }
  }

  lemma RestFacts(metricCols: seq<string>)
    ensures var q := Filter(metricCols, NotPreferred);
      && (forall c :: c in q <==> c in metricCols && NotPreferred(c))
      && (forall i :: 0 <= i < |q| ==> Rank(q[i]) == |Preferred|)
  {
  }

  /** Ranks increase strictly through `p`, which ranks below `top`, and `q` ranks at `top`. */
  lemma ConcatRanks(p: seq<string>, q: seq<string>, top: nat)
    requires forall i :: 0 <= i < |p| ==> Rank(p[i]) < top
    requires forall i, j :: 0 <= i < j < |p| ==> Rank(p[i]) < Rank(p[j])
    requires forall i :: 0 <= i < |q| ==> Rank(q[i]) == top
    ensures forall i, j :: 0 <= i < j < |p + q| ==> Rank((p + q)[i]) <= Rank((p + q)[j])
    ensures forall i, j :: 0 <= i < j < |p + q| && Rank((p + q)[i]) < top ==> Rank((p + q)[i]) < Rank((p + q)[j])
  {
  }

  /** The preferred block then the rest: this is `ordered_metrics`. */
  function Ordered(metricCols: seq<string>): seq<string>
  {
    PresentPreferred(metricCols) + Filter(metricCols, NotPreferred)
  }

  lemma OrderedMembers(metricCols: seq<string>)
    ensures forall c :: c in Ordered(metricCols) <==> c in metricCols
  {
  }

  lemma OrderedRanks(metricCols: seq<string>)
    ensures var r := Ordered(metricCols);
      && (forall i, j :: 0 <= i < j < |r| ==> Rank(r[i]) <= Rank(r[j]))
      && (forall i, j :: 0 <= i < j < |r| && Rank(r[i]) < |Preferred| ==> Rank(r[i]) < Rank(r[j]))
  {
    PresentPreferredFacts(metricCols);
    RestFacts(metricCols);
    ConcatRanks(PresentPreferred(metricCols), Filter(metricCols, NotPreferred), |Preferred|);
  }

  lemma OrderedRest(metricCols: seq<string>)
    ensures Filter(Ordered(metricCols), NotPreferred) == Filter(metricCols, NotPreferred)
  {
    var present := PresentPreferred(metricCols);
    var rest := Filter(metricCols, NotPreferred);
    PresentPreferredFacts(metricCols);
    forall i | 0 <= i < |present|
      ensures !NotPreferred(present[i])
    {
      RankOfNotPreferred(present[i]);
    }
    FilterAppend(present, rest, NotPreferred);
    FilterNone(present, NotPreferred);
    FilterAll(rest, NotPreferred);
  }

  /**
   * `ordered_metrics`: the preferred names present, in preferred order, then
   * the remaining metric columns in table order.
   */
  function OrderMetrics(metricCols: seq<string>): (r: seq<string>)
    ensures forall c :: c in r <==> c in metricCols
    ensures forall i, j :: 0 <= i < j < |r| ==> Rank(r[i]) <= Rank(r[j])
    ensures forall i, j :: 0 <= i < j < |r| && Rank(r[i]) < |Preferred| ==> Rank(r[i]) < Rank(r[j])
    ensures Filter(r, NotPreferred) == Filter(metricCols, NotPreferred)
  {
    OrderedMembers(metricCols);
    OrderedRanks(metricCols);
    OrderedRest(metricCols);
    Ordered(metricCols)
  }

  /** Over distinct column names (pandas never repeats one) the order is a permutation. */
  lemma OrderMetricsPermutes(metricCols: seq<string>)
    requires NoDups(metricCols)
    ensures multiset(OrderMetrics(metricCols)) == multiset(metricCols)
  {
    PreferredNoDups();
    PresentPreferredCounts(metricCols);
    FilterCounts(metricCols, NotPreferred);
    SplitPermutes(metricCols, Preferred, PresentPreferred(metricCols), Filter(metricCols, NotPreferred));
    assert OrderMetrics(metricCols) == PresentPreferred(metricCols) + Filter(metricCols, NotPreferred);
  }

  /** The preferred list names each column once. */
  lemma PreferredNoDups()
    ensures NoDups(Preferred)
  {
    PreferredDistinct();
    DistinctNoDups(Preferred);
  }

  /** The preferred block holds each preferred name once when it is a metric column, and never otherwise. */
  lemma PresentPreferredCounts(metricCols: seq<string>)
    ensures forall c :: multiset(PresentPreferred(metricCols))[c] == if c in metricCols then multiset(Preferred)[c] else 0
  {
    FilterCounts(Preferred, (c: string) => c in metricCols);
  }

  /** The members of `s` found in `pref`, then the others, rearrange `s` when neither repeats a value. */
  lemma SplitPermutes(s: seq<string>, pref: seq<string>, present: seq<string>, rest: seq<string>)
    requires NoDups(s) && NoDups(pref)
    requires forall c :: multiset(present)[c] == if c in s then multiset(pref)[c] else 0
    requires forall c :: multiset(rest)[c] == if c !in pref then multiset(s)[c] else 0
    ensures multiset(present + rest) == multiset(s)
  {
  }

  /** One row of the metrics table: its date and its metric cells by column name. */
  datatype MetricsRow = MetricsRow(date: Option<int>, values: map<string, Option<real>>)

  /** A metric cell; a name outside the row reads as missing. */
  function Cell(row: MetricsRow, m: string): Option<real>
  {
    if m in row.values then row.values[m] else None
  }

  /** The date window of the posts filter applies when the widget holds two dates. */
  ghost predicate InDateRange(row: MetricsRow, dateRange: Option<seq<int>>)
  {
    dateRange.Some? ==> Filters.DateInRange(row.date, dateRange.value)
  }

  /** `dfm[(dfm["Date"] >= start) & (dfm["Date"] <= end)]`, or the whole table without a window. */
  function WindowMetrics(rows: seq<MetricsRow>, dateRange: Option<seq<int>>): (r: seq<MetricsRow>)
    ensures IsSubseq(r, rows)
    ensures forall x :: x in r <==> x in rows && InDateRange(x, dateRange)
  {
    if dateRange.Some? && |dateRange.value| == 2 then
      var start, end := dateRange.value[0], dateRange.value[1];
      Filter(rows, (x: MetricsRow) => Filters.InWindow(x.date, start, end))
    else
      SubseqRefl(rows);
      rows
  }

  /** The window keeps every copy of each row dated inside it and no copy of any other. */
  lemma WindowMetricsCounts(rows: seq<MetricsRow>, dateRange: Option<seq<int>>)
    ensures forall x ::
      multiset(WindowMetrics(rows, dateRange))[x] ==
      (if InDateRange(x, dateRange) then multiset(rows)[x] else 0)
  {
    if dateRange.Some? && |dateRange.value| == 2 {
      var start, end := dateRange.value[0], dateRange.value[1];
      FilterCounts(rows, (x: MetricsRow) => Filters.InWindow(x.date, start, end));
    }
  }

  /** One row of the long table. */
  datatype LongRow = LongRow(date: Option<int>, metric: string, value: Option<real>)

  /** The melted rows of one metric column, in table order. */
  function MeltColumn(rows: seq<MetricsRow>, m: string): (r: seq<LongRow>)
    ensures |r| == |rows|
    ensures forall i :: 0 <= i < |rows| ==> r[i] == LongRow(rows[i].date, m, Cell(rows[i], m))
  {
    if |rows| == 0 then []
    else [LongRow(rows[0].date, m, Cell(rows[0], m))] + MeltColumn(rows[1..], m)
  }

  /** `k * n + i` addresses row `i` of block `k` inside `m` blocks of `n`. */
  lemma BlockIndex(k: int, i: int, n: int, m: int)
    requires 0 <= k < m && 0 <= i < n
    ensures 0 <= k * n + i < m * n
  {
    assert (m - 1) * n - k * n == (m - 1 - k) * n;
    assert (m - 1 - k) * n >= 0;
  }

  /**
   * `melt("Date", var_name="Metric", value_name="Value")` over the selected
   * columns: metric-major, one block of `|rows|` rows per metric.
   */
  function Melt(rows: seq<MetricsRow>, metrics: seq<string>): (r: seq<LongRow>)
    ensures |r| == |metrics| * |rows|
  {
    if |metrics| == 0 then []
    else
      assert |metrics| * |rows| == |rows| + (|metrics| - 1) * |rows|;
      MeltColumn(rows, metrics[0]) + Melt(rows, metrics[1..])
  }

  /** Row `i` of metric `k` sits at position `k * |rows| + i` of the melted table. */
  lemma {:induction false} MeltIndex(rows: seq<MetricsRow>, metrics: seq<string>, k: int, i: int)
    requires 0 <= k < |metrics| && 0 <= i < |rows|
    ensures 0 <= k * |rows| + i < |Melt(rows, metrics)|
    ensures Melt(rows, metrics)[k * |rows| + i] == LongRow(rows[i].date, metrics[k], Cell(rows[i], metrics[k]))
  {
    var n := |rows|;
    BlockIndex(k, i, n, |metrics|);
    if k > 0 {
      MeltIndex(rows, metrics[1..], k - 1, i);
      assert k * n + i == n + ((k - 1) * n + i);
      assert Melt(rows, metrics) == MeltColumn(rows, metrics[0]) + Melt(rows, metrics[1..]);
    }
  }

  /** `dropna()` keeps a long row when neither its date nor its value is missing. */
  predicate Complete(x: LongRow)
  {
    x.date.Some? && x.value.Some?
  }

  /**
   * The long table handed to the chart: the melted rows with a date and a
   * value, in melted order.
   */
  function LongForm(rows: seq<MetricsRow>, metrics: seq<string>): (r: seq<LongRow>)
    ensures IsSubseq(r, Melt(rows, metrics))
    ensures forall x :: x in r <==> x in Melt(rows, metrics) && Complete(x)
  {
    Filter(Melt(rows, metrics), Complete)
  }

  /** The rows of `rows` that carry a date and a value for metric `m`. */
  function CompleteCount(rows: seq<MetricsRow>, m: string): nat
  {
    if |rows| == 0 then 0
    else (if rows[0].date.Some? && Cell(rows[0], m).Some? then 1 else 0) + CompleteCount(rows[1..], m)
  }

  /** The number of (metric, row) pairs with a date and a value. */
  function PairCount(rows: seq<MetricsRow>, metrics: seq<string>): nat
  {
    if |metrics| == 0 then 0 else CompleteCount(rows, metrics[0]) + PairCount(rows, metrics[1..])
  }

  lemma {:induction false} MeltColumnKept(rows: seq<MetricsRow>, m: string)
    ensures |Filter(MeltColumn(rows, m), Complete)| == CompleteCount(rows, m)
  {
    if |rows| > 0 {
      MeltColumnKept(rows[1..], m);
    }
  }

  /** The long table has one row per selected metric and window row where both date and value are present. */
  lemma {:induction false} LongFormRowCount(rows: seq<MetricsRow>, metrics: seq<string>)
    ensures |LongForm(rows, metrics)| == PairCount(rows, metrics)
  {
    if |metrics| > 0 {
      FilterAppend(MeltColumn(rows, metrics[0]), Melt(rows, metrics[1..]), Complete);
      MeltColumnKept(rows, metrics[0]);
      LongFormRowCount(rows, metrics[1..]);
    }
  }

  /** With nothing missing, the long table has exactly `|metrics| * |rows|` rows. */
  lemma {:induction false} NothingMissingRowCount(rows: seq<MetricsRow>, metrics: seq<string>)
    requires forall i :: 0 <= i < |rows| ==> rows[i].date.Some?
    requires forall k, i :: 0 <= k < |metrics| && 0 <= i < |rows| ==> Cell(rows[i], metrics[k]).Some?
    ensures |LongForm(rows, metrics)| == |metrics| * |rows|
  {
    LongFormRowCount(rows, metrics);
    AllPairs(rows, metrics);
  }

  lemma {:induction false} AllPairs(rows: seq<MetricsRow>, metrics: seq<string>)
    requires forall i :: 0 <= i < |rows| ==> rows[i].date.Some?
    requires forall k, i :: 0 <= k < |metrics| && 0 <= i < |rows| ==> Cell(rows[i], metrics[k]).Some?
    ensures PairCount(rows, metrics) == |metrics| * |rows|
  {
    if |metrics| > 0 {
      AllComplete(rows, metrics[0]);
      AllPairs(rows, metrics[1..]);
      assert |metrics| * |rows| == |rows| + (|metrics| - 1) * |rows|;
    }
  }

  lemma {:induction false} AllComplete(rows: seq<MetricsRow>, m: string)
    requires forall i :: 0 <= i < |rows| ==> rows[i].date.Some? && Cell(rows[i], m).Some?
    ensures CompleteCount(rows, m) == |rows|
  {
    if |rows| > 0 {
      AllComplete(rows[1..], m);
    }
  }

  /** Every melted row comes from one selected metric and one table row. */
  lemma {:induction false} MeltMembers(rows: seq<MetricsRow>, metrics: seq<string>, x: LongRow)
    requires x in Melt(rows, metrics)
    ensures exists k, i :: (0 <= k < |metrics| && 0 <= i < |rows| &&
                            x == LongRow(rows[i].date, metrics[k], Cell(rows[i], metrics[k])))
  {
    var head := MeltColumn(rows, metrics[0]);
    if x in head {
      var i :| 0 <= i < |rows| && head[i] == x;
      assert x == LongRow(rows[i].date, metrics[0], Cell(rows[i], metrics[0]));
    } else {
      MeltMembers(rows, metrics[1..], x);
      var k, i :| 0 <= k < |metrics[1..]| && 0 <= i < |rows| &&
        x == LongRow(rows[i].date, metrics[1..][k], Cell(rows[i], metrics[1..][k]));
      assert metrics[1..][k] == metrics[k + 1];
    }
  }

  /**
   * The series for the chart, or `None` (an informational prompt) when no
   * metric is selected. Every row lies in the date window, belongs to a
   * selected metric, and has a date and a value.
   */
  function TrendLines(rows: seq<MetricsRow>, dateRange: Option<seq<int>>, selected: seq<string>): (r: Option<seq<LongRow>>)
    ensures r.None? <==> |selected| == 0
    ensures r.Some? ==> forall x :: x in r.value ==>
      && x.date.Some? && x.value.Some? && x.metric in selected
      && (dateRange.Some? && |dateRange.value| == 2 ==> dateRange.value[0] <= x.date.value <= dateRange.value[1])
      && exists row :: row in rows && InDateRange(row, dateRange) && row.date == x.date && Cell(row, x.metric) == x.value
  {
    if |selected| == 0 then None
    else
      var window := WindowMetrics(rows, dateRange);
      var r := LongForm(window, selected);
      forall x | x in r
        ensures x.date.Some? && x.value.Some? && x.metric in selected
        ensures exists row :: row in window && row.date == x.date && Cell(row, x.metric) == x.value
      {
        MeltMembers(window, selected, x);
        var k, i :| 0 <= k < |selected| && 0 <= i < |window| &&
          x == LongRow(window[i].date, selected[k], Cell(window[i], selected[k]));
        assert window[i] in window;
      }
      Some(r)
  }

  /**
   * With a metric selected, the chart has one row per (selected metric, window
   * row) pair whose date and value are both present.
   */
  lemma TrendLinesRowCount(rows: seq<MetricsRow>, dateRange: Option<seq<int>>, selected: seq<string>)
    requires |selected| > 0
    ensures |TrendLines(rows, dateRange, selected).value| == PairCount(WindowMetrics(rows, dateRange), selected)
  {
    LongFormRowCount(WindowMetrics(rows, dateRange), selected);
  }

  /** Every window row with a date and a value for a selected metric is charted. */
  lemma TrendLinesCovers(rows: seq<MetricsRow>, dateRange: Option<seq<int>>, selected: seq<string>, k: int, i: int)
    requires 0 <= k < |selected|
    requires 0 <= i < |WindowMetrics(rows, dateRange)|
    requires WindowMetrics(rows, dateRange)[i].date.Some?
    requires Cell(WindowMetrics(rows, dateRange)[i], selected[k]).Some?
    ensures var row := WindowMetrics(rows, dateRange)[i];
      LongRow(row.date, selected[k], Cell(row, selected[k])) in TrendLines(rows, dateRange, selected).value
  {
    var window := WindowMetrics(rows, dateRange);
    MeltIndex(window, selected, k, i);
    var x := Melt(window, selected)[k * |window| + i];
    assert x in Melt(window, selected);
  }
}

=== FILE: upload.dfy ===
/**
 * Which uploaded export feeds which normalizer: decided by a case-insensitive
 * substring of the file name, the later of two files with one role winning.
 */
module Upload {
  import opened Options
  import opened Text

  datatype Role = PostsExport | MetricsExport | Unrecognized

  /** `"all posts" in name.lower()` is tested before `"metrics"`. */
  function RoleOf(name: string): (r: Role)
    ensures r == PostsExport <==> IsSubstring("all posts", Lower(name))
    ensures r == MetricsExport <==> !IsSubstring("all posts", Lower(name)) && IsSubstring("metrics", Lower(name))
  {
    var n := Lower(name);
    if Contains(n, "all posts") then PostsExport
    else if Contains(n, "metrics") then MetricsExport
    else Unrecognized
  }

  /** The position of the upload a role reads: the last file with that role, or `None`. */
  function LastWithRole(names: seq<string>, role: Role): (r: Option<nat>)
    ensures r.Some? ==> r.value < |names| && RoleOf(names[r.value]) == role
    ensures r.Some? ==> forall j :: r.value < j < |names| ==> RoleOf(names[j]) != role
    ensures r.None? ==> forall j :: 0 <= j < |names| ==> RoleOf(names[j]) != role
    decreases |names|
  {
    if |names| == 0 then None
    else if RoleOf(names[|names| - 1]) == role then Some(|names| - 1)
    else LastWithRole(names[..|names| - 1], role)
  }
}
